=== FILE: README.md ===
# JSON-RPC 2.0 server codec — a Dafny model

This project models the JSON-RPC 2.0 codec of the `json2` package: how an
HTTP request body becomes a *request set* (`CodecRequest`), how a dispatcher
reads the method name and parameters of each request, and how replies and
errors become response envelopes that are emitted one by one or collected
into a batch. It also models the error taxonomy: the six reserved error
codes, their decimal rendering, and the `Error` record.

The JSON library is not modelled. Decoding is an oracle supplied by the
caller:
- `Codec.Json` decodes a single request or a batch;
- `Codec.Binder` decodes parameters into a caller's argument in one of three
  shapes.

A decode may fail, and a failed decode may still leave the argument
partly filled. Emission is a returned value: `Some(Out(contentType,
payload))` means the Content-Type header was set and the payload encoded.
`None` means the call wrote nothing.

Modules, in dependency order:

- `Wrappers`: `Option` and `Result`.
- `Raw`: bytes, and the ASCII helper.
- `ErrorCodes`: the code constants, decimal formatting and parsing, and `MarshalJSON`.
- `Messages`: requests, the `Error` record, Go errors (`Err`), and response envelopes.
- `Codec`: options, batch sniffing, parsing, the request set, the accessors, error mapping and the writes.
- `Session`: properties of call sequences (fallback order, stickiness, batch and single-request traces, whole exchanges).
- `NullRequest`: the findings about nil requests decoded from JSON `null`, as the code has them and as corrected.
- `Client`: `DecodeClientResponse`.

### Behaviour modelled as the code has it

Several behaviours differ from what the JSON-RPC 2.0 specification asks.
The model follows the code in each case:

- In batch mode every envelope is appended to the batch, notifications
  included (v2/json2/server.go:341).
- Whether a batch is emitted at all depends only on the last request's id,
  or on the last envelope being a parse error (v2/json2/server.go:349-351).
  So a batch whose last member is a notification answered with a result
  emits nothing, even when earlier members carry ids.
  See `Session.LastNotificationSilencesBatch`.
- An empty batch `[]` gives a request set with no requests and no error.
  Nothing is ever written for it (v2/json2/server.go:214-218).
- In map-all mode the parse error of an unparsable body also goes through
  the mapper (v2/json2/server.go:327-328), and emission tests the mapped
  envelope (v2/json2/server.go:351, 363-365). A mapper that re-codes or
  redacts the parse error therefore leaves the body unanswered, although
  the comment at v2/json2/server.go:349-350 promises a reply whenever the
  JSON could not be parsed. See `Session.MapAllCanSilenceParseFailure`.
- A parameter binding failure is stored in the request set. From then on
  every `Method` and `ReadRequest` call returns it, on every index of the
  batch (v2/json2/server.go:241-244, 262, 283-292).

## Model

| member | source | states |
|---|---|---|
| ErrorCodes.CodesDistinctAndReserved | v2/json2/error.go:23-30 | the six codes are pairwise distinct and all lie in the reserved range -32768..-32000 |
| ErrorCodes.FormatNatCanonical | v2/json2/error.go:20 | the decimal text of a natural has no leading zero (unless it is `0`) and reads back as the same number |
| ErrorCodes.FormatIntRoundTrip | v2/json2/error.go:19-21 | base-10 formatting of any integer is canonical, starts with `-` exactly for negatives, and parses back to the integer |
| ErrorCodes.MarshalJSON | v2/json2/error.go:19-21 | marshalling a code never fails and yields the canonical decimal text of the code, which parses back to the code |
| ErrorCodes.MarshalParseLiteral | v2/json2/error.go:24 | E_PARSE marshals to the bytes `-32700` |
| ErrorCodes.MarshalInvalidReqLiteral | v2/json2/error.go:25 | E_INVALID_REQ marshals to the bytes `-32600` |
| ErrorCodes.MarshalNoMethodLiteral | v2/json2/error.go:26 | E_NO_METHOD marshals to the bytes `-32601` |
| ErrorCodes.MarshalBadParamsLiteral | v2/json2/error.go:27 | E_BAD_PARAMS marshals to the bytes `-32602` |
| ErrorCodes.MarshalInternalLiteral | v2/json2/error.go:28 | E_INTERNAL marshals to the bytes `-32603` |
| ErrorCodes.MarshalServerLiteral | v2/json2/error.go:29 | E_SERVER marshals to the bytes `-32000` |
| Messages.TextIgnoresCodeAndData | v2/json2/error.go:46-48 | an `Error`'s text is its message: two errors with the same message have the same text, whatever their codes and data |
| Codec.NewCustomCodecLastOptionWins | v2/json2/server.go:96-122 | options apply in order: map-all is on iff some option sets it, there is no mapper unless an option sets one, and the last mapper option decides the mapper |
| Codec.NewCustomCodecMapAll | v2/json2/server.go:100-119 | map-all mode is on iff some option asks for it |
| Codec.NewCustomCodecNoMapper | v2/json2/server.go:96-119 | without a mapper option the codec has no mapper |
| Codec.NewCustomCodecLastMapper | v2/json2/server.go:96-119 | the mapper is the one set by the last mapper option |
| Codec.IsBatch | v2/json2/server.go:193-196 | a body is a batch iff some `[` is preceded only by bytes up to 0x20 (the JSON whitespace and every control byte) |
| Codec.ParseMessage | v2/json2/server.go:198-219 | a read error and each decode error yield their prefixed messages; a non-batch body that decodes yields exactly the one decoded request, and a batch that decodes yields the decoded list in order, and only then is the result a success |
| Codec.ParseFollowsSniff | v2/json2/server.go:193-218 | a read body parses iff the decoder chosen by its first significant byte succeeds, and it is a batch iff that byte is `[` |
| Codec.FirstBadVersion | v2/json2/server.go:170-179 | finds the first request whose version is not "2.0", with every earlier one matching; it finds none iff all match |
| Codec.NewCodecRequest | v2/json2/server.go:154-191 | a parse failure gives exactly one empty request carrying E_PARSE with the parse message; otherwise the requests are kept in order and the error is E_INVALID_REQ on the first wrong-version request, absent iff all versions match |
| Session.CountMatchesParse | v2/json2/server.go:162-168 | `RequestCount` is one for an unparsable body, one for a single body, and the number of elements for a batch |
| Codec.Method | v2/json2/server.go:237-245 | returns the request's method and no error iff no error is stored, otherwise `""` and the stored error |
| Codec.ReadRequest | v2/json2/server.go:260-293 | only the stored error can change; a stored error or absent params skips decoding; a newly stored error is E_INVALID_REQ carrying the params; a field-slice failure is returned but not stored |
| Codec.MapError | v2/json2/server.go:322-336 | no mapper leaves the error unchanged; map-all always applies the mapper; otherwise JSON-RPC errors pass through and other errors are mapped |
| Codec.ErrorEnvelope | v2/json2/server.go:305-318 | the error envelope echoes the id and carries the mapped JSON-RPC error, or E_SERVER with the mapped error's text when the mapped error is not a JSON-RPC error |
| Codec.ParseErrorEnvelopes | v2/json2/server.go:363-365 | a result envelope is never a parse-error response; an error envelope is one iff the mapped error is a JSON-RPC error with code E_PARSE |
| Codec.WriteServerResponse | v2/json2/server.go:338-365 | outside batch mode nothing is kept; in batch mode the envelope is appended; output happens iff (not batch or last index) and (id present or parse error), and is the envelope or the whole accumulated batch |
| Codec.WriteResponse | v2/json2/server.go:296-303 | changes nothing but the batch list, appends the result envelope in batch mode and emits exactly when the request has an id and, in batch mode, is the last one |
| Codec.WriteError | v2/json2/server.go:305-320 | changes nothing but the batch list, appends the error envelope in batch mode and emits exactly when it is allowed to (single or last index) and the request has an id or the envelope carries E_PARSE |
| Session.NoMapperSendsErrorsAsTheyAre | v2/json2/server.go:305-336 | without a mapper, `WriteError` sends a JSON-RPC error as it is and any other error as E_SERVER with its text |
| Session.SelectiveMappingSparesRpcErrors | v2/json2/server.go:305-336 | with a mapper but not map-all, `WriteError` sends a JSON-RPC error unchanged and any other error as the mapper's image, wrapped in E_SERVER when that image is not a JSON-RPC error |
| Session.MapAllRemapsRpcErrors | v2/json2/server.go:305-336 | in map-all mode `WriteError` sends the mapper's image even of a JSON-RPC error |
| Session.ReadRequestTriesStrategiesInOrder | v2/json2/server.go:265-292 | the bound argument is what the first successful strategy, in the order direct, field slice, one-element array, produces; E_INVALID_REQ with the last failure text is stored iff all three fail |
| Session.FieldsSliceFailureIsNotStored | v2/json2/server.go:269-272 | a failure to build the field slice is returned with its prefix and the request set is unchanged |
| Session.StoredErrorIsSticky | v2/json2/server.go:240-292 | with an error stored, `Method` and `ReadRequest` on any index return it without decoding, and no write clears it |
| Session.BindingFailurePoisonsRequestSet | v2/json2/server.go:282-292 | after a binding failure on one index, `Method` and `ReadRequest` on every other index return that E_INVALID_REQ error |
| Session.ResponsesInOrder | v2/json2/server.go:341 | the accumulated envelopes keep call order: the k-th is the k-th call's |
| Session.FeedStateOnBatch | v2/json2/server.go:340-341 | in batch mode a sequence of calls appends every envelope in call order, notifications included |
| Session.FeedEmitsOnlyAtLast | v2/json2/server.go:340-351 | in batch mode any call emits iff it is for the last index and that request has an id or its envelope is a parse error |
| Session.FeedLastOnBatch | v2/json2/server.go:340-354 | in batch mode, when the final call emits, it emits the whole accumulated list with its own envelope last |
| Session.FeedOnSingle | v2/json2/server.go:338-360 | outside batch mode the state never changes and each call emits its own envelope iff its request has an id or the envelope is a parse error |
| Session.RunIsWriteCalls | v2/json2/server.go:296-320 | a run of writes is the write calls made one after the other: the first call's state is where the rest run, and its output comes first |
| Session.FeedInOrderBatch | v2/json2/server.go:338-360 | a batch answered once per index, in order, emits nothing before the last call; the last call emits all envelopes iff the last request has an id or its envelope is a parse error |
| Session.LastNotificationSilencesBatch | v2/json2/server.go:349-351 | a batch whose last request is a notification answered with a result emits nothing at all |
| Session.EmissionsEchoIds | v2/json2/server.go:296-318 | every envelope a write builds echoes the id of the request it answers |
| Session.RunOnSingle | v2/json2/server.go:338-360 | for a single request each write emits its own envelope iff the request has an id or the envelope is a parse error; a reply to a notification is never emitted |
| Session.ParseFailureIsReported | v2/json2/server.go:162-168 | outside map-all mode, an unparsable body yields one request, E_PARSE from `Method`, and one emitted envelope carrying that error with no id |
| Session.MapAllCanSilenceParseFailure | v2/json2/server.go:327-351 | in map-all mode the id-less parse-failure placeholder is answered iff the mapper's image of the E_PARSE error is still a JSON-RPC error with code E_PARSE |
| Session.WrongVersionIsRejected | v2/json2/server.go:169-180 | outside map-all mode, a single request with the wrong version gets E_INVALID_REQ "jsonrpc must be 2.0" carrying the request, and the error envelope echoes its id |
| Session.EmptyBatchHasNoRequests | v2/json2/server.go:214-218 | an empty batch gives a batch request set with no requests and no error |
| Session.NotificationReplyIsSilent | v2/json2/server.go:349-351 | a reply to a single notification changes nothing and emits nothing |
| Session.CountIsStable | v2/json2/server.go:233-235 | the request count is unchanged by reads and writes |
| NullRequest.ScanVersionsAsWritten | v2/json2/server.go:170-179 | the version loop as written panics iff a nil request comes before any wrong-version request |
| NullRequest.NullBodyPanicsAsWritten | v2/json2/server.go:205-211 | the body `null` parses as one nil single request, on which the loop as written panics |
| NullRequest.NullBodyIsInvalidRequest | v2/json2/server.go:169-180 | with nil read as the empty request, the body `null` is rejected with E_INVALID_REQ |
| NullRequest.NullBodyGetsNoReply | v2/json2/server.go:338-351 | outside map-all mode, even corrected, the body `null` gets no reply, since its one request has no id |
| NullRequest.MapAllNullBodyReply | v2/json2/server.go:327-351 | in map-all mode, the corrected body `null` is answered iff the mapper's image of its E_INVALID_REQ error is a JSON-RPC error with code E_PARSE |
| NullRequest.CorrectionAgreesWhenNoPanic | v2/json2/server.go:170-179 | whenever the loop as written does not panic, the corrected check records the same error |
| NullRequest.NilRequestIsInvalidRequest | v2/json2/server.go:170-179 | in the corrected check, a nil request before any wrong-version request yields E_INVALID_REQ on the empty request where the code as written panics |
| NullRequest.NilAfterWrongVersionEscapesTheLoop | v2/json2/server.go:170-179 | as written, a nil request after a wrong-version request does not stop the loop: it finishes with the invalid-request error of that earlier request, and the nil stays in the request set |
| NullRequest.NilAfterWrongVersionIsAnsweredEmpty | v2/json2/server.go:305-319 | corrected, in such a batch the nil element is the empty request, and an error written for it appends an envelope without an id |
| Client.DecodeClientResponse | v2/json2/server.go:372-395 | a read error and each decode error yield their prefixed messages; a non-batch body that decodes yields exactly the one decoded response, and a batch that decodes yields the decoded list, and only then is the result a success |
| Client.DecodeFollowsSniff | v2/json2/server.go:377-394 | a read response body decodes iff the decoder chosen by its first significant byte succeeds, and a non-array body gives a one-element list |

## Left out

- Reading and closing the HTTP body is not modelled. The body arrives as a `Result`: its bytes, or the read error.
- Headers, `http.ResponseWriter` and the response encoder are not modelled. An emission is returned as a value instead.
- An encoder failure is not modelled. The code then answers with `rpc.WriteError` and status 500 (v2/json2/server.go:353-359); that output is foreign code.
- `encoding/json` and `gjson` are not modelled. Decoding is the oracles `Codec.Json` and `Codec.Binder`, and JSON rendering, including `omitempty`, is not modelled.
- `Codec.IsBatch` models gjson's sniff: it skips bytes up to 0x20, then looks for `[`. The library's own parser is not modelled.
- `structFieldsToFieldsSlice` is not part of this model. It is the possibly failing oracle `Binder.fieldsSlice`.
- Encoder selection and the JSON encoder factory are not modelled. The options that set them leave the modelled configuration unchanged.
- `context.Context` is not modelled: it is only passed on to the mapper. The mapper is a function on errors.
- Concurrent dispatch of batch items is not modelled. Calls are a sequential trace, which is what the code assumes.
- `ErrNullResult` (v2/json2/error.go:32) and `EmptyResponse` (v2/json2/server.go:367-368) are not modelled. Nothing in the modelled code uses them.
- `NewCodec` and `Codec.NewRequest` (v2/json2/server.go:129-147) are not modelled. They only pass the options on, which `Codec.NewCodecRequest` takes as its configuration.
- `Codec.Method`, `Codec.ReadRequest` and the writes require an index in range where the code would panic on an out-of-range index. `Method` on a request set with a stored error needs no valid index, as in the code.
- Codec.MapError: a Go error is never nil here. In the source, `WriteError` with a nil error and no mapper panics at `err.Error()`, and so does a mapper that returns nil (v2/json2/server.go:306-311). `Messages.Err` has no nil value, so the model does not cover these cases.
- Codec.ErrorEnvelope: a mapper that returns a typed-nil `*Error` passes the type assertion, and the envelope then has neither result nor error (v2/json2/server.go:307, 314-318). A mapped JSON-RPC error in the model always has an error object.
- Messages.Version: modelled as the constant "2.0". In the source it is an exported package variable (v2/json2/server.go:20) that other code could reassign; the model fixes it at its initial value.
- `Messages.Error.data` holds only what the code stores there: nothing, the offending request, or the raw params. Arbitrary caller data is not modelled.
- Codec.WriteError: like `Codec.WriteResponse`, it reads the id of a nil batch element as absent. In the source, a nil element after a wrong-version request reaches `WriteResponse` or `WriteError`, which dereference it and panic (v2/json2/server.go:300, 317). See "## Findings".
- Session.FeedInOrderBatch: the batch trace is stated over the envelopes handed to `writeServerResponse`. `Session.RunIsWriteCalls` and `Session.EmissionsEchoIds` connect those envelopes to the write calls.

## Findings

| source | as written | input that shows it | evidently intended | confidence | as-written member | corrected member |
|---|---|---|---|---|---|---|
| v2/json2/server.go:170-179 | the version loop reads `req.Version` on each decoded request up to the first wrong version. JSON `null`, whether as the body or as a batch element, decodes to a nil request, so a nil that comes before any wrong-version request is dereferenced and the loop panics | the request body `null` (or the batch `[null]`) | reject the request with -32600 "jsonrpc must be 2.0", as for any request lacking the version; its one request has no id, so outside map-all mode this error is still not sent (NullRequest.NullBodyGetsNoReply) | medium, not executed | NullRequest.NullBodyPanicsAsWritten | NullRequest.NullBodyIsInvalidRequest |
| v2/json2/server.go:296-318 | a nil request that comes after a wrong-version request is not read by the version loop and stays in the request set; `WriteResponse` and `WriteError` for its index read `c.requests[reqIdx].Id` through the nil pointer and panic | the batch `[{"jsonrpc":"1.0","id":1}, null]` | answer the nil element as a request without an id: its envelope joins the batch responses | medium, not executed | NullRequest.NilAfterWrongVersionEscapesTheLoop | NullRequest.NilAfterWrongVersionIsAnsweredEmpty |

The corrected reading, in `Codec.NewCodecRequest`, treats a nil request as
the empty request. The rest of the model uses that reading. Where the version loop
as written does not panic, `NullRequest.CorrectionAgreesWhenNoPanic` shows that
both readings record the same error.
That includes a nil request after a wrong-version request. There the source
panics later, in the writes, which is the second row.

=== FILE: client.dfy ===
/** The client side's reading of a response body: one object or a batch
    array, told apart by the same sniff the server uses for requests. */
module Client {
  import opened Wrappers
  import opened Raw
  import opened Codec

  /** `DecodeClientResponse`: the body, or the error met reading it, decoded
      as a one-element list when it is not a batch and as the decoded list
      when it is. `decodeOne` and `decodeMany` are the JSON library decoding
      into one response and into a list of them. */
  function DecodeClientResponse<C>(body: Result<Bytes, string>,
                                   decodeOne: Bytes -> Result<C, string>,
                                   decodeMany: Bytes -> Result<seq<C>, string>): (r: Result<seq<C>, string>)
    ensures body.Failure? ==> r == Failure("reading response body: " + body.error)
    ensures r.Success? && !IsBatch(body.value) ==> |r.value| == 1 && decodeOne(body.value) == Success(r.value[0])
    ensures r.Success? && IsBatch(body.value) ==> decodeMany(body.value) == Success(r.value)
    ensures body.Success? && !IsBatch(body.value) && decodeOne(body.value).Failure? ==>
              r == Failure("decoding none batch response body: " + decodeOne(body.value).error)
    ensures body.Success? && IsBatch(body.value) && decodeMany(body.value).Failure? ==>
              r == Failure("decoding batch response body: " + decodeMany(body.value).error)
    ensures body.Success? && !IsBatch(body.value) && decodeOne(body.value).Success? ==>
              r == Success([decodeOne(body.value).value])
    ensures body.Success? && IsBatch(body.value) && decodeMany(body.value).Success? ==>
              r == Success(decodeMany(body.value).value)
  {
    match body
    case Failure(e) => Failure("reading response body: " + e)
    case Success(data) =>
      if !IsBatch(data) then
        match decodeOne(data)
        case Failure(e) => Failure("decoding none batch response body: " + e)
        case Success(c) => Success([c])
      else
        match decodeMany(data)
        case Failure(e) => Failure("decoding batch response body: " + e)
        case Success(cr) => Success(cr)
  }

  /** A response body that was read decodes exactly when the decoder its
      first significant byte selects succeeds; a non-array body always gives
      a one-element list. */
  lemma DecodeFollowsSniff<C>(data: Bytes, decodeOne: Bytes -> Result<C, string>,
                              decodeMany: Bytes -> Result<seq<C>, string>)
    ensures DecodeClientResponse(Success(data), decodeOne, decodeMany).Success? <==>
              if StartsArray(data) then decodeMany(data).Success? else decodeOne(data).Success?
    ensures DecodeClientResponse(Success(data), decodeOne, decodeMany).Success? && !StartsArray(data) ==>
              |DecodeClientResponse(Success(data), decodeOne, decodeMany).value| == 1
  {
  }
}

=== FILE: codec.dfy ===
/** The server side of the JSON-RPC 2.0 codec: building the request set from
    a body, the per-index accessors, error translation, and the assembly and
    emission of response envelopes. JSON decoding is an oracle passed in;
    writing to the HTTP response is an `Out` value handed back. */
module Codec {
  import opened Wrappers
  import opened Raw
  import opened ErrorCodes
  import opened Messages

  // ---------------------------------------------------------------------------
  // Configuration
  // ---------------------------------------------------------------------------

  /** An error mapper. The request context it also receives is passed through
      untouched, so it is left out. */
  type Mapper = Err -> Err

  /** The codec options that affect this model: the error mapper, if any, and
      whether it applies to errors that already are JSON-RPC errors. */
  datatype Config = Config(mapper: Option<Mapper>, mapAll: bool)

  /** The functional options of `NewCustomCodec`. The encoder options choose
      how bytes are written and do not change any decision modelled here. */
  datatype CodecOption =
    | WithErrorMapper(mapper: Option<Mapper>)
    | MapAllErrors
    | WithEncoderSelector
    | WithJSONEncoderFactory

  function ApplyOption(config: Config, opt: CodecOption): Config {
    match opt
    case WithErrorMapper(m) => config.(mapper := m)
    case MapAllErrors => config.(mapAll := true)
    case WithEncoderSelector => config
    case WithJSONEncoderFactory => config
  }

  /** Some option turns on map-all mode. */
  predicate HasMapAll(opts: seq<CodecOption>) {
    exists k :: 0 <= k < |opts| && opts[k].MapAllErrors?
  }

  /** No option sets the error mapper. */
  predicate NoMapperOption(opts: seq<CodecOption>) {
    forall k :: 0 <= k < |opts| ==> !opts[k].WithErrorMapper?
  }

  /** No option after position `k` sets the error mapper. */
  predicate LastMapperAt(opts: seq<CodecOption>, k: nat) {
    forall j :: k < j < |opts| ==> !opts[j].WithErrorMapper?
  }

  /** `NewCustomCodec`: the options applied in order on top of the defaults,
      no mapper and selective mapping. */
  function NewCustomCodec(opts: seq<CodecOption>): Config {
    if |opts| == 0 then Config(None, false)
    else ApplyOption(NewCustomCodec(opts[..|opts| - 1]), opts[|opts| - 1])
  }

  /** Map-all mode is on exactly when some option asks for it. */
  lemma {:induction false} NewCustomCodecMapAll(opts: seq<CodecOption>)
    ensures NewCustomCodec(opts).mapAll <==> HasMapAll(opts)
  {
    if |opts| > 0 {
      var init := opts[..|opts| - 1];
      var last := opts[|opts| - 1];
      NewCustomCodecMapAll(init);
      assert HasMapAll(opts) <==> HasMapAll(init) || last.MapAllErrors? by {
        if HasMapAll(init) {
          var k :| 0 <= k < |init| && init[k].MapAllErrors?;
          assert opts[k].MapAllErrors?;
        }
        if last.MapAllErrors? {
          assert opts[|opts| - 1].MapAllErrors?;
        }
        if HasMapAll(opts) && !last.MapAllErrors? {
          var k :| 0 <= k < |opts| && opts[k].MapAllErrors?;
          assert init[k].MapAllErrors?;
        }
      }
    }
  }

  /** Without a mapper option there is no mapper. */
  lemma {:induction false} NewCustomCodecNoMapper(opts: seq<CodecOption>)
    ensures NoMapperOption(opts) ==> NewCustomCodec(opts).mapper.None?
  {
    if |opts| > 0 && NoMapperOption(opts) {
      var init := opts[..|opts| - 1];
      assert NoMapperOption(init) by {
        assert forall k :: 0 <= k < |init| ==> init[k] == opts[k];
      }
      NewCustomCodecNoMapper(init);
    }
  }

  /** The mapper is the one the last mapper option sets. */
  lemma {:induction false} NewCustomCodecLastMapper(opts: seq<CodecOption>, k: nat)
    requires k < |opts| && opts[k].WithErrorMapper? && LastMapperAt(opts, k)
    ensures NewCustomCodec(opts).mapper == opts[k].mapper
  {
    var init := opts[..|opts| - 1];
    if k < |opts| - 1 {
      assert LastMapperAt(init, k) && init[k] == opts[k];
      NewCustomCodecLastMapper(init, k);
    }
  }

  /** Map-all mode is on exactly when some option asks for it. The mapper is
      the one the last mapper option sets, and there is none without such an
      option. */
  lemma NewCustomCodecLastOptionWins(opts: seq<CodecOption>)
    ensures NewCustomCodec(opts).mapAll <==> HasMapAll(opts)
    ensures NoMapperOption(opts) ==> NewCustomCodec(opts).mapper.None?
    ensures forall k :: 0 <= k < |opts| && opts[k].WithErrorMapper? && LastMapperAt(opts, k) ==>
                          NewCustomCodec(opts).mapper == opts[k].mapper
  {
    NewCustomCodecMapAll(opts);
    NewCustomCodecNoMapper(opts);
    forall k | 0 <= k < |opts| && opts[k].WithErrorMapper? && LastMapperAt(opts, k)
      ensures NewCustomCodec(opts).mapper == opts[k].mapper
    {
      NewCustomCodecLastMapper(opts, k);
    }
  }

  // ---------------------------------------------------------------------------
  // Parsing the body
  // ---------------------------------------------------------------------------

  const OpenBracket: byte := 0x5B

  /** Every byte before position `k` is blank. */
  predicate BlankUpTo(raw: Bytes, k: nat)
    requires k <= |raw|
  {
    forall j :: 0 <= j < k ==> IsBlank(raw[j])
  }

  /** The body's first significant byte opens an array. */
  predicate StartsArray(raw: Bytes) {
    exists k :: 0 <= k < |raw| && BlankUpTo(raw, k) && raw[k] == OpenBracket
  }

  /** `IsBatch`: the first significant byte of the body is `[`. */
  function IsBatch(raw: Bytes): (r: bool)
    ensures r <==> StartsArray(raw)
  {
    if |raw| == 0 then false
    else if IsBlank(raw[0]) then
      var r := IsBatch(raw[1..]);
      assert r ==> exists k :: 0 <= k < |raw| && BlankUpTo(raw, k) && raw[k] == OpenBracket by {
        if r {
          var k :| 0 <= k < |raw[1..]| && BlankUpTo(raw[1..], k) && raw[1..][k] == OpenBracket;
          assert BlankUpTo(raw, k + 1);
        }
      }
      assert (exists k :: 0 <= k < |raw| && BlankUpTo(raw, k) && raw[k] == OpenBracket) ==> r by {
        if exists k :: 0 <= k < |raw| && BlankUpTo(raw, k) && raw[k] == OpenBracket {
          var k :| 0 <= k < |raw| && BlankUpTo(raw, k) && raw[k] == OpenBracket;
          assert k > 0;
          assert BlankUpTo(raw[1..], k - 1);
        }
      }
      r
    else
      assert BlankUpTo(raw, 0);
      raw[0] == OpenBracket
  }

  /** The JSON library as the parser uses it. Decoding one request yields
      `None` when the body is the JSON literal `null`, which sets the Go
      pointer to nil; a batch likewise holds `None` for each `null` element. */
  datatype Json = Json(
    decodeRequest: Bytes -> Result<Option<Request>, string>,
    decodeBatch: Bytes -> Result<seq<Option<Request>>, string>)

  /** What `parseMessage` hands back on success. */
  datatype Parsed = Parsed(messages: seq<Option<Request>>, isBatch: bool)

  /** `parseMessage`: the body, or the error met reading it, sniffed and
      decoded as a batch or as a single request. */
  function ParseMessage(body: Result<Bytes, string>, json: Json): (r: Result<Parsed, string>)
    ensures body.Failure? ==> r == Failure("reading request body: " + body.error)
    ensures r.Success? ==> body.Success? && r.value.isBatch == IsBatch(body.value)
    ensures r.Success? && !r.value.isBatch ==>
              |r.value.messages| == 1 && json.decodeRequest(body.value) == Success(r.value.messages[0])
    ensures r.Success? && r.value.isBatch ==> json.decodeBatch(body.value) == Success(r.value.messages)
    ensures body.Success? && !IsBatch(body.value) && json.decodeRequest(body.value).Failure? ==>
              r == Failure("json unmarshal single request error: " + json.decodeRequest(body.value).error)
    ensures body.Success? && IsBatch(body.value) && json.decodeBatch(body.value).Failure? ==>
              r == Failure("json unmarshal batch request error: " + json.decodeBatch(body.value).error)
    ensures body.Success? && !IsBatch(body.value) && json.decodeRequest(body.value).Success? ==>
              r == Success(Parsed([json.decodeRequest(body.value).value], false))
    ensures body.Success? && IsBatch(body.value) && json.decodeBatch(body.value).Success? ==>
              r == Success(Parsed(json.decodeBatch(body.value).value, true))
  {
    match body
    case Failure(e) => Failure("reading request body: " + e)
    case Success(raw) =>
      if !IsBatch(raw) then
        match json.decodeRequest(raw)
        case Failure(e) => Failure("json unmarshal single request error: " + e)
        case Success(m) => Success(Parsed([m], false))
      else
        match json.decodeBatch(raw)
        case Failure(e) => Failure("json unmarshal batch request error: " + e)
        case Success(ms) => Success(Parsed(ms, true))
  }

  /** A body that was read parses exactly when the decoder its first
      significant byte selects succeeds, and it is a batch exactly when that
      byte opens an array. */
  lemma ParseFollowsSniff(raw: Bytes, json: Json)
    ensures ParseMessage(Success(raw), json).Success? <==>
              if StartsArray(raw) then json.decodeBatch(raw).Success? else json.decodeRequest(raw).Success?
    ensures ParseMessage(Success(raw), json).Success? ==>
              ParseMessage(Success(raw), json).value.isBatch == StartsArray(raw)
  {
  }

  // ---------------------------------------------------------------------------
  // The request set
  // ---------------------------------------------------------------------------

  /** The state of one request set (`CodecRequest`). */
  datatype CodecRequest = CodecRequest(
    requests: seq<Request>,
    isBatch: bool,
    err: Option<Error>,
    config: Config,
    batchResponses: seq<Response>)

  /** `RequestCount`. */
  function RequestCount(c: CodecRequest): nat {
    |c.requests|
  }

  /** The decoded requests with each nil one read as the zero request. */
  function Present(messages: seq<Option<Request>>): (r: seq<Request>)
    ensures |r| == |messages|
    ensures forall k :: 0 <= k < |messages| ==> r[k] == messages[k].GetOr(EmptyRequest)
  {
    seq(|messages|, k requires 0 <= k < |messages| => messages[k].GetOr(EmptyRequest))
  }

  /** The error recorded for a request whose version is not "2.0". */
  function InvalidVersion(req: Request): Error {
    Error(EInvalidReq, "jsonrpc must be " + Version, RequestData(req))
  }

  /** The position of the first request whose version is not "2.0". */
  function FirstBadVersion(reqs: seq<Request>): (r: Option<nat>)
    ensures r.Some? ==> r.value < |reqs| && reqs[r.value].version != Version
    ensures r.Some? ==> forall j :: 0 <= j < r.value ==> reqs[j].version == Version
    ensures r.None? <==> forall j :: 0 <= j < |reqs| ==> reqs[j].version == Version
  {
    if |reqs| == 0 then None
    else if reqs[0].version != Version then Some(0)
    else
      match FirstBadVersion(reqs[1..])
      case None => None
      case Some(k) => Some(k + 1)
  }

  /** The version check of `newCodecRequest`. */
  function VersionError(reqs: seq<Request>): Option<Error> {
    match FirstBadVersion(reqs)
    case None => None
    case Some(k) => Some(InvalidVersion(reqs[k]))
  }

  /** `newCodecRequest`. A body that cannot be parsed becomes one placeholder
      request carrying a parse error; otherwise every decoded request is kept,
      in order, and the first with the wrong version is recorded as an
      invalid-request error. */
  function NewCodecRequest(body: Result<Bytes, string>, json: Json, config: Config): (c: CodecRequest)
    ensures c.config == config && c.batchResponses == []
    ensures ParseMessage(body, json).Failure? ==>
              && c.requests == [EmptyRequest]
              && !c.isBatch
              && c.err == Some(Error(EParse, ParseMessage(body, json).error, NoData))
    ensures ParseMessage(body, json).Success? ==>
              && |c.requests| == |ParseMessage(body, json).value.messages|
              && c.isBatch == ParseMessage(body, json).value.isBatch
              && (forall k :: 0 <= k < |c.requests| && ParseMessage(body, json).value.messages[k].Some? ==>
                    c.requests[k] == ParseMessage(body, json).value.messages[k].value)
              && (forall k :: 0 <= k < |c.requests| && ParseMessage(body, json).value.messages[k].None? ==>
                    c.requests[k] == EmptyRequest)
              && (c.err.None? <==> forall k :: 0 <= k < |c.requests| ==> c.requests[k].version == Version)
    ensures ParseMessage(body, json).Success? && c.err.Some? ==>
              exists k :: && 0 <= k < |c.requests|
                          && c.requests[k].version != Version
                          && (forall j :: 0 <= j < k ==> c.requests[j].version == Version)
                          && c.err == Some(InvalidVersion(c.requests[k]))
  {
    match ParseMessage(body, json)
    case Failure(e) => CodecRequest([EmptyRequest], false, Some(Error(EParse, e, NoData)), config, [])
    case Success(p) =>
      var reqs := Present(p.messages);
      CodecRequest(reqs, p.isBatch, VersionError(reqs), config, [])
  }

  /** `Method`: the method name of request `i`, or the stored error. */
  function Method(c: CodecRequest, i: nat): (r: (string, Option<Error>))
    requires c.err.Some? || i < |c.requests|
    ensures r.1 == c.err
    ensures r.1.None? ==> r.0 == c.requests[i].methodName
    ensures r.1.Some? ==> r.0 == ""
  {
    if c.err.None? then (c.requests[i].methodName, None) else ("", c.err)
  }

  // ---------------------------------------------------------------------------
  // Binding parameters
  // ---------------------------------------------------------------------------

  /** The three shapes the parameters are decoded into: the argument itself,
      the slice of its fields, and a one-element array holding it. */
  datatype Shape = Direct | FieldsSlice | WrappedInArray

  /** One decode attempt: the argument as the attempt left it (a failed
      decode may still have filled some of it) and the failure text, if any. */
  datatype Attempt<A> = Attempt(target: A, failure: Option<string>)

  /** The JSON library and reflection as `ReadRequest` uses them: decoding raw
      params into a shape of the argument, and whether the argument can be
      turned into a slice of its fields (the error text when it cannot). */
  datatype Binder<!A> = Binder(decode: (Bytes, Shape, A) -> Attempt<A>, fieldsSlice: A -> Option<string>)

  /** What `ReadRequest` leaves behind: the request set, the argument, and
      the returned error. */
  datatype Read<A> = Read(codec: CodecRequest, args: A, err: Option<Err>)

  /** The stored error as a Go `error`. */
  function Stored(err: Option<Error>): Option<Err> {
    match err
    case None => None
    case Some(e) => Some(Rpc(e))
  }

  const FieldsSlicePrefix: string := "transforming struct fields to array of fields: "

  /** `ReadRequest`: binds request `i`'s params onto `args`, trying direct
      decode, then the field slice, then a one-element array. Only when all
      three fail is an invalid-request error stored, and it stays stored. */
  function ReadRequest<A>(c: CodecRequest, i: nat, args: A, binder: Binder<A>): (r: Read<A>)
    requires i < |c.requests|
    ensures r.codec == c.(err := r.codec.err)
    ensures c.err.Some? || c.requests[i].params.None? ==> r == Read(c, args, Stored(c.err))
    ensures r.codec.err.Some? ==> r.err == Stored(r.codec.err)
    ensures r.codec.err != c.err ==>
              && c.err.None?
              && c.requests[i].params.Some?
              && r.codec.err.Some?
              && r.codec.err.value.code == EInvalidReq
              && r.codec.err.value.data == RawData(c.requests[i].params.value)
    ensures r.err.Some? && r.err.value.Plain? ==>
              && r.codec.err.None?
              && |FieldsSlicePrefix| <= |r.err.value.text|
              && r.err.value.text[..|FieldsSlicePrefix|] == FieldsSlicePrefix
  {
    var request := c.requests[i];
    if c.err.None? && request.params.Some? then
      var raw := request.params.value;
      var direct := binder.decode(raw, Direct, args);
      if direct.failure.None? then Read(c, direct.target, None)
      else
        match binder.fieldsSlice(direct.target)
        case Some(e) => Read(c, direct.target, Some(Plain(FieldsSlicePrefix + e)))
        case None =>
          var fields := binder.decode(raw, FieldsSlice, direct.target);
          if fields.failure.None? then Read(c, fields.target, None)
          else
            var wrapped := binder.decode(raw, WrappedInArray, fields.target);
            if wrapped.failure.None? then Read(c, wrapped.target, None)
            else
              var failed := Error(EInvalidReq, wrapped.failure.value, RawData(raw));
              Read(c.(err := Some(failed)), wrapped.target, Some(Rpc(failed)))
    else Read(c, args, Stored(c.err))
  }

  // ---------------------------------------------------------------------------
  // Error translation
  // ---------------------------------------------------------------------------

  /** `tryToMapIfNotAnErrorAlready`. Without a mapper nothing changes; in
      map-all mode every error goes through the mapper; otherwise a JSON-RPC
      error passes through and any other error is mapped. */
  function MapError(config: Config, err: Err): (r: Err)
    ensures config.mapper.None? ==> r == err
    ensures err.Rpc? && !config.mapAll ==> r == err
    ensures config.mapper.Some? && (config.mapAll || err.Plain?) ==> r == config.mapper.value(err)
  {
    match config.mapper
    case None => err
    case Some(mapper) =>
      if config.mapAll then mapper(err)
      else if err.Rpc? then err
      else mapper(err)
  }

  // ---------------------------------------------------------------------------
  // Envelopes and emission
  // ---------------------------------------------------------------------------

  /** The envelope `WriteResponse` builds. */
  function ReplyEnvelope(id: Option<Bytes>, reply: Value): Response {
    Response(Version, Returned(reply), id)
  }

  /** The envelope `WriteError` builds: the mapped error when it is a
      JSON-RPC error, otherwise a server error carrying its text. */
  function ErrorEnvelope(config: Config, id: Option<Bytes>, err: Err): (r: Response)
    ensures r.version == Version && r.id == id && r.body.Failed?
    ensures MapError(config, err).Rpc? ==> r.body.error == MapError(config, err).rpc
    ensures MapError(config, err).Plain? ==> r.body.error == Error(EServer, MapError(config, err).Text(), NoData)
  {
    var jsonErr :=
      match MapError(config, err)
      case Rpc(e) => e
      case Plain(t) => Error(EServer, t, NoData);
    Response(Version, Failed(jsonErr), id)
  }

  const ContentType: string := "application/json; charset=utf-8"

  /** What is encoded: one envelope, or the accumulated batch. */
  datatype Payload = Single(response: Response) | Batch(responses: seq<Response>)

  /** One emission: the Content-Type header set, then the payload encoded. */
  datatype Out = Out(contentType: string, payload: Payload)

  /** `isParseErrorResponse`. */
  predicate IsParseErrorResponse(res: Response) {
    res.body.Failed? && res.body.error.code == EParse
  }

  /** A result envelope is never a parse-error response, and an error
      envelope is one exactly when the mapped error is a JSON-RPC error with
      code E_PARSE: the E_SERVER wrapping of any other error never is. */
  lemma ParseErrorEnvelopes(config: Config, id: Option<Bytes>, err: Err, reply: Value)
    ensures !IsParseErrorResponse(ReplyEnvelope(id, reply))
    ensures IsParseErrorResponse(ErrorEnvelope(config, id, err)) <==>
              MapError(config, err).Rpc? && MapError(config, err).rpc.code == EParse
  {
  }

  /** `writeServerResponse`. In a batch every envelope is appended, and only
      the call for the last index may emit, and then the whole batch. Output
      happens only for a request with an id or for a parse-error envelope. */
  function WriteServerResponse(c: CodecRequest, i: nat, res: Response): (r: (CodecRequest, Option<Out>))
    requires i < |c.requests|
    ensures !c.isBatch ==> r.0 == c
    ensures c.isBatch ==> r.0 == c.(batchResponses := c.batchResponses + [res])
    ensures r.1.Some? <==>
              && (!c.isBatch || i == |c.requests| - 1)
              && (c.requests[i].id.Some? || IsParseErrorResponse(res))
    ensures r.1.Some? ==> r.1.value.contentType == ContentType
    ensures r.1.Some? && !c.isBatch ==> r.1.value.payload == Single(res)
    ensures r.1.Some? && c.isBatch ==> r.1.value.payload == Batch(c.batchResponses + [res])
  {
    var (next, out) :=
      if c.isBatch then
        var next := c.(batchResponses := c.batchResponses + [res]);
        (next, if i == |c.requests| - 1 then Some(Batch(next.batchResponses)) else None)
      else (c, Some(Single(res)));
    if out.Some? && (c.requests[i].id.Some? || IsParseErrorResponse(res)) then
      (next, Some(Out(ContentType, out.value)))
    else (next, None)
  }

  /** `WriteResponse`: request `i`'s reply, with its id echoed. */
  function WriteResponse(c: CodecRequest, i: nat, reply: Value): (r: (CodecRequest, Option<Out>))
    requires i < |c.requests|
    ensures r.0 == c.(batchResponses := r.0.batchResponses)
    ensures r.0.batchResponses ==
              if c.isBatch then c.batchResponses + [Response(Version, Returned(reply), c.requests[i].id)]
              else c.batchResponses
    ensures r.1.Some? <==> (!c.isBatch || i == |c.requests| - 1) && c.requests[i].id.Some?
    ensures r.1.Some? && !c.isBatch ==>
              r.1.value == Out(ContentType, Single(Response(Version, Returned(reply), c.requests[i].id)))
    ensures r.1.Some? && c.isBatch ==> r.1.value == Out(ContentType, Batch(r.0.batchResponses))
  {
    WriteServerResponse(c, i, ReplyEnvelope(c.requests[i].id, reply))
  }

  /** `WriteError`: request `i`'s error, translated and wrapped, with its id
      echoed. */
  function WriteError(c: CodecRequest, i: nat, err: Err): (r: (CodecRequest, Option<Out>))
    requires i < |c.requests|
    ensures r.0 == c.(batchResponses := r.0.batchResponses)
    ensures r.0.batchResponses ==
              if c.isBatch then c.batchResponses + [ErrorEnvelope(c.config, c.requests[i].id, err)]
              else c.batchResponses
    ensures r.1.Some? <==>
              && (!c.isBatch || i == |c.requests| - 1)
              && (c.requests[i].id.Some? || ErrorEnvelope(c.config, c.requests[i].id, err).body.error.code == EParse)
    ensures r.1.Some? && !c.isBatch ==>
              r.1.value == Out(ContentType, Single(ErrorEnvelope(c.config, c.requests[i].id, err)))
    ensures r.1.Some? && c.isBatch ==> r.1.value == Out(ContentType, Batch(r.0.batchResponses))
  {
    WriteServerResponse(c, i, ErrorEnvelope(c.config, c.requests[i].id, err))
  }
}

=== FILE: error_codes.dfy ===
/** The JSON-RPC 2.0 error codes and their rendering as JSON numbers. */
module ErrorCodes {
  import opened Wrappers
  import opened Raw

  const MinInt64: int := -0x8000_0000_0000_0000
  const MaxInt64: int := 0x7FFF_FFFF_FFFF_FFFF

  /** Go's `ErrorCode` is a named `int`. The model gives it int64's range,
      which is the width of `int` on the 64-bit platforms the server runs
      on, so the conversion `int64(c)` before formatting changes nothing. */
  type ErrorCode = x: int | MinInt64 <= x <= MaxInt64

  /** Invalid JSON was received (`E_PARSE`). */
  const EParse: ErrorCode := -32700
  /** The JSON sent is not a valid request object (`E_INVALID_REQ`). */
  const EInvalidReq: ErrorCode := -32600
  /** The method does not exist (`E_NO_METHOD`). */
  const ENoMethod: ErrorCode := -32601
  /** Invalid method parameters (`E_BAD_PARAMS`). */
  const EBadParams: ErrorCode := -32602
  /** Internal JSON-RPC error (`E_INTERNAL`). */
  const EInternal: ErrorCode := -32603
  /** Generic server error, the wrap for errors that carry no code (`E_SERVER`). */
  const EServer: ErrorCode := -32000

  /** The six codes the server defines, in declaration order. */
  const Codes: seq<ErrorCode> := [EParse, EInvalidReq, ENoMethod, EBadParams, EInternal, EServer]

  /** The bounds of the range section 5.1 ("Error object") of the JSON-RPC 2.0
      specification reserves for pre-defined errors. */
  const ReservedLow: int := -32768
  const ReservedHigh: int := -32000

  /** The codes are pairwise distinct and all lie in the reserved range. */
  lemma CodesDistinctAndReserved()
    ensures |Codes| == 6
    ensures forall i, j :: 0 <= i < j < |Codes| ==> Codes[i] != Codes[j]
    ensures forall i :: 0 <= i < |Codes| ==> ReservedLow <= Codes[i] <= ReservedHigh
  {
  }

  // ---------------------------------------------------------------------------
  // Base-10 text
  // ---------------------------------------------------------------------------

  const Minus: byte := 45
  const Zero: byte := 48

  predicate IsDigit(b: byte) {
    Zero <= b <= Zero + 9
  }

  predicate AllDigits(s: Bytes) {
    forall i :: 0 <= i < |s| ==> IsDigit(s[i])
  }

  /** A non-empty digit string with no leading zero, unless it is `0` alone. */
  predicate IsCanonicalUnsigned(s: Bytes) {
    |s| > 0 && AllDigits(s) && (s[0] != Zero || |s| == 1)
  }

  /** The canonical base-10 text of an integer: an optional `-`, then a
      canonical digit string, and never `-0`. */
  predicate IsCanonicalDecimal(s: Bytes) {
    if |s| > 0 && s[0] == Minus then IsCanonicalUnsigned(s[1..]) && s[1..] != [Zero]
    else IsCanonicalUnsigned(s)
  }

  /** The value of a digit string, read most significant digit first. */
  function DigitsValue(s: Bytes): nat
    requires AllDigits(s)
  {
    if |s| == 0 then 0 else DigitsValue(s[..|s| - 1]) * 10 + (s[|s| - 1] - Zero) as int
  }

  /** Reads base-10 text back into an integer: the reference reading that
      `FormatInt` is proved to invert. */
  function DecimalValue(s: Bytes): Option<int> {
    if |s| > 0 && s[0] == Minus then
      if |s| > 1 && AllDigits(s[1..]) then Some(-(DigitsValue(s[1..]) as int)) else None
    else if |s| > 0 && AllDigits(s) then Some(DigitsValue(s))
    else None
  }

  function FormatNat(n: nat): Bytes {
    if n < 10 then [Zero + n as byte]
    else FormatNat(n / 10) + [Zero + (n % 10) as byte]
  }

  /** `strconv.FormatInt(n, 10)`: a `-` for negative values, then the digits
      of the magnitude. */
  function FormatInt(n: int): Bytes {
    if n < 0 then [Minus] + FormatNat(-n) else FormatNat(n)
  }

  lemma {:induction false} FormatNatCanonical(n: nat)
    ensures IsCanonicalUnsigned(FormatNat(n))
    ensures DigitsValue(FormatNat(n)) == n
    ensures FormatNat(n)[0] == Zero <==> n == 0
  {
    if n >= 10 {
      FormatNatCanonical(n / 10);
      var s := FormatNat(n);
      assert s[..|s| - 1] == FormatNat(n / 10);
    }
  }

  /** The formatted text is canonical, starts with `-` exactly when the value
      is negative, and reads back as the value it came from. */
  lemma {:induction false} FormatIntRoundTrip(n: int)
    ensures IsCanonicalDecimal(FormatInt(n))
    ensures FormatInt(n)[0] == Minus <==> n < 0
    ensures DecimalValue(FormatInt(n)) == Some(n)
  {
    if n < 0 {
      FormatNatCanonical(-n);
      assert FormatInt(n)[1..] == FormatNat(-n);
    } else {
      FormatNatCanonical(n);
    }
  }

  /** `ErrorCode.MarshalJSON`: the code as a JSON number in base 10. It never
      reports an error. */
  function MarshalJSON(c: ErrorCode): (r: (Bytes, Option<string>))
    ensures r.1 == None
    ensures IsCanonicalDecimal(r.0)
    ensures r.0[0] == Minus <==> c < 0
    ensures DecimalValue(r.0) == Some(c as int)
  {
    FormatIntRoundTrip(c);
    (FormatInt(c), None)
  }

  /** Each defined code renders as its familiar literal, `E_PARSE` as `-32700`
      and so on. */
  lemma MarshalParseLiteral()
    ensures MarshalJSON(EParse).0 == Ascii("-32700")
  {
    assert FormatNat(32700) == FormatNat(3270) + [Zero + 0];
    assert FormatNat(3270) == FormatNat(327) + [Zero + 0];
    assert FormatNat(327) == FormatNat(32) + [Zero + 7];
    assert FormatNat(32) == FormatNat(3) + [Zero + 2];
  }

  lemma MarshalInvalidReqLiteral()
    ensures MarshalJSON(EInvalidReq).0 == Ascii("-32600")
  {
    assert FormatNat(32600) == FormatNat(3260) + [Zero + 0];
    assert FormatNat(3260) == FormatNat(326) + [Zero + 0];
    assert FormatNat(326) == FormatNat(32) + [Zero + 6];
    assert FormatNat(32) == FormatNat(3) + [Zero + 2];
  }

  lemma MarshalNoMethodLiteral()
    ensures MarshalJSON(ENoMethod).0 == Ascii("-32601")
  {
    assert FormatNat(32601) == FormatNat(3260) + [Zero + 1];
    assert FormatNat(3260) == FormatNat(326) + [Zero + 0];
    assert FormatNat(326) == FormatNat(32) + [Zero + 6];
    assert FormatNat(32) == FormatNat(3) + [Zero + 2];
  }

  lemma MarshalBadParamsLiteral()
    ensures MarshalJSON(EBadParams).0 == Ascii("-32602")
  {
    assert FormatNat(32602) == FormatNat(3260) + [Zero + 2];
    assert FormatNat(3260) == FormatNat(326) + [Zero + 0];
    assert FormatNat(326) == FormatNat(32) + [Zero + 6];
    assert FormatNat(32) == FormatNat(3) + [Zero + 2];
  }

  lemma MarshalInternalLiteral()
    ensures MarshalJSON(EInternal).0 == Ascii("-32603")
  {
    assert FormatNat(32603) == FormatNat(3260) + [Zero + 3];
    assert FormatNat(3260) == FormatNat(326) + [Zero + 0];
    assert FormatNat(326) == FormatNat(32) + [Zero + 6];
    assert FormatNat(32) == FormatNat(3) + [Zero + 2];
  }

  lemma MarshalServerLiteral()
    ensures MarshalJSON(EServer).0 == Ascii("-32000")
  {
    assert FormatNat(32000) == FormatNat(3200) + [Zero + 0];
    assert FormatNat(3200) == FormatNat(320) + [Zero + 0];
    assert FormatNat(320) == FormatNat(32) + [Zero + 0];
    assert FormatNat(32) == FormatNat(3) + [Zero + 2];
  }
}

=== FILE: messages.dfy ===
/** The records that travel through the codec: requests as decoded, the
    error object, Go's `error` values, and response envelopes. */
module Messages {
  import opened Wrappers
  import opened Raw
  import opened ErrorCodes

  /** The protocol version every request must carry and every response states. */
  const Version: string := "2.0"

  /** One decoded invocation (`serverRequest`). `params` and `id` stay raw:
      the parameters are decoded only when a handler asks for them, and the
      id is echoed back byte for byte without any type check. */
  datatype Request = Request(version: string, methodName: string, params: Option<Bytes>, id: Option<Bytes>)

  /** The zero value of a request: no version, no method, no params, no id. */
  const EmptyRequest: Request := Request("", "", None, None)

  /** What an error object the codec builds carries in `data`: nothing, the
      request whose version is wrong, or the raw params that could not be
      bound. */
  datatype Data = NoData | RequestData(request: Request) | RawData(raw: Bytes)

  /** The JSON-RPC error object (`Error`). */
  datatype Error = Error(code: ErrorCode, message: string, data: Data) {

    /** `(*Error).Error()`: the message, whatever the code and data are. */
    function Text(): string {
      message
    }
  }

  /** A Go `error` value as the codec sees it: either a JSON-RPC `*Error` or
      any other error, of which only its text is observable. */
  datatype Err = Rpc(rpc: Error) | Plain(text: string) {

    /** The `Error()` text of the value. */
    function Text(): string {
      match this
      case Rpc(e) => e.Text()
      case Plain(t) => t
    }
  }

  /** A handler's reply, kept opaque: how it renders as JSON is the encoder's
      business, not the codec's. */
  type Value = Bytes

  /** The mutually exclusive halves of an envelope: a result on success, an
      error object on failure. */
  datatype Body = Returned(result: Value) | Failed(error: Error)

  /** One response envelope (`serverResponse`). */
  datatype Response = Response(version: string, body: Body, id: Option<Bytes>)

  /** `Error()` depends on the message alone: two errors with the same message
      have the same text, whatever their codes and data. */
  lemma TextIgnoresCodeAndData(a: Error, b: Error)
    requires a.message == b.message
    ensures a.Text() == b.Text()
    ensures Rpc(a).Text() == a.message
  {
  }
}

=== FILE: null_request.dfy ===
/** The version check of `newCodecRequest` as written, next to the model's
    corrected reading. The JSON library decodes the body `null`, and each
    `null` element of a batch, to a nil request pointer. The loop written in
    the source reads the version of each request up to the first wrong one:
    a nil request before that point is dereferenced and panics, and a nil
    request after it stays in the request set, where `WriteResponse` and
    `WriteError` later read its id and panic. The rest of the model reads a
    nil request as the zero request, which the version check rejects as an
    invalid request and which the writes answer without an id. */
module NullRequest {
  import opened Wrappers
  import opened Raw
  import opened Messages
  import opened Codec
  import opened ErrorCodes

  /** How the version loop as written ends: a nil dereference, or the error
      it records. */
  datatype Scan = Panics | Scanned(err: Option<Error>)

  /** Every message before position `k` is a request with the right version. */
  predicate GoodUpTo(messages: seq<Option<Request>>, k: nat)
    requires k <= |messages|
  {
    forall j :: 0 <= j < k ==> messages[j].Some? && messages[j].value.version == Version
  }

  /** The version loop exactly as written. It panics exactly when a nil
      request comes before any request with the wrong version. */
  function ScanVersionsAsWritten(messages: seq<Option<Request>>): (r: Scan)
    ensures r.Panics? <==> exists k :: 0 <= k < |messages| && messages[k].None? && GoodUpTo(messages, k)
  {
    if |messages| == 0 then Scanned(None)
    else
      var r :=
        match messages[0]
        case None => Panics
        case Some(req) =>
          if req.version != Version then Scanned(Some(InvalidVersion(req)))
          else ScanVersionsAsWritten(messages[1..]);
      assert GoodUpTo(messages, 0);
      assert r.Panics? && messages[0].Some? ==> exists k :: 0 <= k < |messages| && messages[k].None? && GoodUpTo(messages, k) by {
        if r.Panics? && messages[0].Some? {
          var k :| 0 <= k < |messages[1..]| && messages[1..][k].None? && GoodUpTo(messages[1..], k);
          assert GoodUpTo(messages, k + 1);
        }
      }
      assert (exists k :: 0 <= k < |messages| && messages[k].None? && GoodUpTo(messages, k)) && messages[0].Some? ==> r.Panics? by {
        if (exists k :: 0 <= k < |messages| && messages[k].None? && GoodUpTo(messages, k)) && messages[0].Some? {
          var k :| 0 <= k < |messages| && messages[k].None? && GoodUpTo(messages, k);
          assert k > 0;
          assert GoodUpTo(messages[1..], k - 1);
        }
      }
      r
  }

  /** The body `null`. */
  const NullBody: Bytes := Ascii("null")

  /** As written, the body `null` is parsed without error into one nil request,
      and the version loop then dereferences it. */
  lemma NullBodyPanicsAsWritten(json: Json)
    requires json.decodeRequest(NullBody) == Success(None)
    ensures ParseMessage(Success(NullBody), json) == Success(Parsed([None], false))
    ensures ScanVersionsAsWritten([None]).Panics?
  {
    assert NullBody[0] == 0x6E;
    assert !IsBatch(NullBody);
  }

  /** Outside map-all mode, even corrected, the body `null` gets no reply:
      its one request has no id, and an invalid-request error is not a parse
      error. */
  lemma NullBodyGetsNoReply(json: Json, config: Config)
    requires json.decodeRequest(NullBody) == Success(None)
    requires config.mapper.None? || !config.mapAll
    ensures var c := NewCodecRequest(Success(NullBody), json, config);
            && c.err.Some?
            && WriteError(c, 0, Rpc(c.err.value)).1 == None
  {
    NullBodyIsInvalidRequest(json, config);
  }

  /** In map-all mode, the corrected body `null` is answered exactly when the
      mapper turns its invalid-request error into a JSON-RPC parse error, the
      one kind of error sent for a request without an id. */
  lemma MapAllNullBodyReply(json: Json, config: Config)
    requires json.decodeRequest(NullBody) == Success(None)
    requires config.mapper.Some? && config.mapAll
    ensures var c := NewCodecRequest(Success(NullBody), json, config);
            var m := config.mapper.value(Rpc(c.err.value));
            && c.err.Some?
            && (WriteError(c, 0, Rpc(c.err.value)).1.Some? <==> m.Rpc? && m.rpc.code == EParse)
  {
    NullBodyIsInvalidRequest(json, config);
  }

  /** Corrected: the body `null` is one request set of one zero request whose
      stored error is an invalid-request error, as the JSON-RPC 2.0
      specification prescribes for a request that is not a valid Request
      object. */
  lemma NullBodyIsInvalidRequest(json: Json, config: Config)
    requires json.decodeRequest(NullBody) == Success(None)
    ensures NewCodecRequest(Success(NullBody), json, config).requests == [EmptyRequest]
    ensures NewCodecRequest(Success(NullBody), json, config).err == Some(InvalidVersion(EmptyRequest))
  {
    NullBodyPanicsAsWritten(json);
    assert Present([None]) == [EmptyRequest];
  }

  /** The correction only changes the inputs that crash: wherever the loop as
      written finishes, it records the same error as the corrected check. */
  lemma {:induction false} CorrectionAgreesWhenNoPanic(messages: seq<Option<Request>>)
    requires ScanVersionsAsWritten(messages).Scanned?
    ensures ScanVersionsAsWritten(messages).err == VersionError(Present(messages))
    decreases |messages|
  {
    if |messages| > 0 && messages[0].Some? && messages[0].value.version == Version {
      CorrectionAgreesWhenNoPanic(messages[1..]);
      assert Present(messages)[1..] == Present(messages[1..]);
    }
  }

  /** Corrected: a nil request that no wrong-version request precedes yields
      the invalid-request error for the zero request, where the loop as
      written panics. */
  lemma NilRequestIsInvalidRequest(messages: seq<Option<Request>>, k: nat)
    requires k < |messages| && messages[k].None? && GoodUpTo(messages, k)
    ensures ScanVersionsAsWritten(messages).Panics?
    ensures VersionError(Present(messages)) == Some(InvalidVersion(EmptyRequest))
  {
    var reqs := Present(messages);
    assert reqs[k] == EmptyRequest;
    var first := FirstBadVersion(reqs);
    assert first.Some?;
    assert first.value == k;
  }

  /** As written, a nil request that follows a request with the wrong version
      gets past the version loop: the loop stops at the wrong version without
      panicking, so the nil pointer stays at its index for the writes. */
  lemma NilAfterWrongVersionEscapesTheLoop(messages: seq<Option<Request>>, j: nat, k: nat)
    requires j < k < |messages|
    requires GoodUpTo(messages, j) && messages[j].Some? && messages[j].value.version != Version
    requires messages[k].None?
    ensures ScanVersionsAsWritten(messages) == Scanned(Some(InvalidVersion(messages[j].value)))
  {
    assert ScanVersionsAsWritten(messages).Scanned? by {
      forall n | 0 <= n < |messages| && messages[n].None?
        ensures !GoodUpTo(messages, n)
      {
        assert j < n;
      }
    }
    CorrectionAgreesWhenNoPanic(messages);
    var reqs := Present(messages);
    assert reqs[j] == messages[j].value;
    assert forall i :: 0 <= i < j ==> reqs[i].version == Version by {
      forall i | 0 <= i < j
        ensures reqs[i].version == Version
      {
        assert messages[i].Some?;
      }
    }
    FirstBadVersionAt(reqs, j);
  }

  /** The first wrong version is found where every earlier request is good. */
  lemma FirstBadVersionAt(reqs: seq<Request>, j: nat)
    requires j < |reqs| && reqs[j].version != Version
    requires forall i :: 0 <= i < j ==> reqs[i].version == Version
    ensures FirstBadVersion(reqs) == Some(j)
  {
    var r := FirstBadVersion(reqs);
    assert r.Some?;
    assert !(r.value < j);
  }

  /** Corrected: in a batch whose nil element follows a request with the wrong
      version, the nil element is the zero request, and an error written for
      it is appended as an envelope without an id. */
  lemma NilAfterWrongVersionIsAnsweredEmpty(raw: Bytes, json: Json, config: Config, j: nat, k: nat, err: Err)
    requires IsBatch(raw) && json.decodeBatch(raw).Success?
    requires var messages := json.decodeBatch(raw).value;
             && j < k < |messages|
             && GoodUpTo(messages, j) && messages[j].Some? && messages[j].value.version != Version
             && messages[k].None?
    ensures var messages := json.decodeBatch(raw).value;
            var c := NewCodecRequest(Success(raw), json, config);
            && c.err == Some(InvalidVersion(messages[j].value))
            && c.requests[k] == EmptyRequest
            && WriteError(c, k, err).0.batchResponses == [ErrorEnvelope(config, None, err)]
  {
    var messages := json.decodeBatch(raw).value;
    NilAfterWrongVersionEscapesTheLoop(messages, j, k);
  }
}

=== FILE: raw.dfy ===
/** Raw bytes as the codec receives and emits them. */
module Raw {

  newtype byte = x: int | 0 <= x < 256

  /** An uninterpreted byte string: a request body, a `json.RawMessage`. */
  type Bytes = seq<byte>

  /** The bytes of an ASCII string, one byte per character. */
  function Ascii(s: string): (r: Bytes)
    requires forall i :: 0 <= i < |s| ==> s[i] as int < 128
    ensures |r| == |s|
    ensures forall i :: 0 <= i < |s| ==> r[i] as int == s[i] as int
  {
    if |s| == 0 then [] else [(s[0] as int) as byte] + Ascii(s[1..])
  }

  /** The bytes the JSON sniffer skips before looking at the first
      significant one: every control byte and the space (0x00 to 0x20). */
  predicate IsBlank(b: byte) {
    b <= 0x20
  }
}

=== FILE: session.dfy ===
/** Properties of whole request sets: the order of parameter-decoding
    strategies, the stickiness of a stored error, and what a sequence of
    write calls emits for a single request and for a batch. */
module Session {
  import opened Wrappers
  import opened Raw
  import opened ErrorCodes
  import opened Messages
  import opened Codec

  // ---------------------------------------------------------------------------
  // The parameter fallback chain
  // ---------------------------------------------------------------------------

  /** The reference reading of a fallback chain: try each shape in turn, on
      the argument as the previous attempt left it, and stop at the first
      that succeeds. */
  function FirstSuccess<A>(decode: (Bytes, Shape, A) -> Attempt<A>, raw: Bytes, shapes: seq<Shape>, a: A): Attempt<A>
    requires |shapes| > 0
    decreases |shapes|
  {
    var t := decode(raw, shapes[0], a);
    if t.failure.None? || |shapes| == 1 then t else FirstSuccess(decode, raw, shapes[1..], t.target)
  }

  /** The order `ReadRequest` tries: direct, field slice, one-element array. */
  const Strategies: seq<Shape> := [Direct, FieldsSlice, WrappedInArray]

  /** When the argument can be turned into a field slice, `ReadRequest` binds
      exactly what the first successful strategy in `Strategies` produces, and
      stores an invalid-request error carrying the params and the last
      failure text exactly when all three fail. */
  lemma ReadRequestTriesStrategiesInOrder<A>(c: CodecRequest, i: nat, args: A, binder: Binder<A>)
    requires i < |c.requests| && c.err.None? && c.requests[i].params.Some?
    requires binder.decode(c.requests[i].params.value, Direct, args).failure.Some? ==>
               binder.fieldsSlice(binder.decode(c.requests[i].params.value, Direct, args).target).None?
    ensures var raw := c.requests[i].params.value;
            var r := ReadRequest(c, i, args, binder);
            var t := FirstSuccess(binder.decode, raw, Strategies, args);
            && r.args == t.target
            && (t.failure.None? ==> r.codec == c && r.err.None?)
            && (t.failure.Some? ==>
                  && r.codec.err == Some(Error(EInvalidReq, t.failure.value, RawData(raw)))
                  && r.err == Stored(r.codec.err))
  {
    var raw := c.requests[i].params.value;
    var a1 := binder.decode(raw, Direct, args);
    assert Strategies[1..] == [FieldsSlice, WrappedInArray];
    assert Strategies[1..][1..] == [WrappedInArray];
    if a1.failure.Some? {
      var a2 := binder.decode(raw, FieldsSlice, a1.target);
      assert FirstSuccess(binder.decode, raw, Strategies, args)
          == FirstSuccess(binder.decode, raw, [FieldsSlice, WrappedInArray], a1.target);
      if a2.failure.Some? {
        assert FirstSuccess(binder.decode, raw, [FieldsSlice, WrappedInArray], a1.target)
            == FirstSuccess(binder.decode, raw, [WrappedInArray], a2.target);
      }
    }
  }

  /** When the argument cannot be turned into a field slice after a failed
      direct decode, the wrapped error is returned and nothing is stored. */
  lemma FieldsSliceFailureIsNotStored<A>(c: CodecRequest, i: nat, args: A, binder: Binder<A>)
    requires i < |c.requests| && c.err.None? && c.requests[i].params.Some?
    requires binder.decode(c.requests[i].params.value, Direct, args).failure.Some?
    requires binder.fieldsSlice(binder.decode(c.requests[i].params.value, Direct, args).target).Some?
    ensures var direct := binder.decode(c.requests[i].params.value, Direct, args);
            ReadRequest(c, i, args, binder) ==
              Read(c, direct.target, Some(Plain(FieldsSlicePrefix + binder.fieldsSlice(direct.target).value)))
  {
  }

  // ---------------------------------------------------------------------------
  // Stickiness of the stored error
  // ---------------------------------------------------------------------------

  /** Once an error is stored, every `Method` and `ReadRequest` call, on any
      index, returns it without decoding anything, and no write clears it. */
  lemma StoredErrorIsSticky<A>(c: CodecRequest, i: nat, args: A, binder: Binder<A>, reply: Value, err: Err)
    requires c.err.Some? && i < |c.requests|
    ensures Method(c, i) == ("", c.err)
    ensures ReadRequest(c, i, args, binder) == Read(c, args, Some(Rpc(c.err.value)))
    ensures WriteResponse(c, i, reply).0.err == c.err
    ensures WriteError(c, i, err).0.err == c.err
  {
  }

  /** A binding failure on one index poisons the whole request set: afterwards
      `Method` and `ReadRequest` on every index return that error. */
  lemma BindingFailurePoisonsRequestSet<A, B>(c: CodecRequest, i: nat, args: A, binder: Binder<A>,
                                              j: nat, other: B, otherBinder: Binder<B>)
    requires i < |c.requests| && j < |c.requests|
    requires c.err.None?
    requires ReadRequest(c, i, args, binder).codec.err.Some?
    ensures var after := ReadRequest(c, i, args, binder).codec;
            && after.err.value.code == EInvalidReq
            && Method(after, j) == ("", after.err)
            && ReadRequest(after, j, other, otherBinder) == Read(after, other, Some(Rpc(after.err.value)))
  {
  }

  // ---------------------------------------------------------------------------
  // Sequences of writes
  // ---------------------------------------------------------------------------

  /** What reaches `writeServerResponse`: an index and the envelope built for
      it. */
  datatype Item = Item(index: nat, response: Response)

  predicate ValidItems(c: CodecRequest, items: seq<Item>) {
    forall k :: 0 <= k < |items| ==> items[k].index < |c.requests|
  }

  /** The envelopes the items carry, in order. */
  function Responses(items: seq<Item>): (r: seq<Response>)
    ensures |r| == |items|
  {
    if |items| == 0 then [] else [items[0].response] + Responses(items[1..])
  }

  /** The `k`-th envelope is the `k`-th item's: call order is kept. */
  lemma {:induction false} ResponsesInOrder(items: seq<Item>, k: nat)
    requires k < |items|
    ensures Responses(items)[k] == items[k].response
    decreases k
  {
    if k > 0 {
      ResponsesInOrder(items[1..], k - 1);
    }
  }

  /** Hands the items to `writeServerResponse` in order, collecting what each
      call emits. */
  function Feed(c: CodecRequest, items: seq<Item>): (r: (CodecRequest, seq<Option<Out>>))
    requires ValidItems(c, items)
    ensures r.0.requests == c.requests && r.0.config == c.config && r.0.isBatch == c.isBatch && r.0.err == c.err
    ensures |r.1| == |items|
    decreases |items|
  {
    if |items| == 0 then (c, [])
    else
      var step := WriteServerResponse(c, items[0].index, items[0].response);
      var rest := Feed(step.0, items[1..]);
      (rest.0, [step.1] + rest.1)
  }

  /** `Feed` on a non-empty list: the first call, then the rest. */
  lemma FeedUnfold(c: CodecRequest, items: seq<Item>)
    requires ValidItems(c, items) && |items| > 0
    ensures ValidItems(WriteServerResponse(c, items[0].index, items[0].response).0, items[1..])
    ensures Feed(c, items).0 == Feed(WriteServerResponse(c, items[0].index, items[0].response).0, items[1..]).0
    ensures Feed(c, items).1 ==
              [WriteServerResponse(c, items[0].index, items[0].response).1]
              + Feed(WriteServerResponse(c, items[0].index, items[0].response).0, items[1..]).1
  {
  }

  /** In batch mode the envelopes are appended in call order, whether or not
      their requests are notifications. */
  lemma {:induction false} FeedStateOnBatch(c: CodecRequest, items: seq<Item>)
    requires c.isBatch && ValidItems(c, items)
    ensures Feed(c, items).0.batchResponses == c.batchResponses + Responses(items)
    decreases |items|
  {
    if |items| == 0 {
      assert Responses(items) == [];
    } else {
      var c1 := WriteServerResponse(c, items[0].index, items[0].response).0;
      assert c1.batchResponses == c.batchResponses + [items[0].response];
      assert ValidItems(c1, items[1..]) && Feed(c, items).0 == Feed(c1, items[1..]).0 by {
        FeedUnfold(c, items);
      }
      FeedStateOnBatch(c1, items[1..]);
      assert Responses(items) == [items[0].response] + Responses(items[1..]);
      assert c.batchResponses + Responses(items) == c1.batchResponses + Responses(items[1..]);
    }
  }

  /** In batch mode the `k`-th call emits exactly when it is for the last
      index and that request has an id or its envelope is a parse error. */
  lemma {:induction false} FeedEmitsOnlyAtLast(c: CodecRequest, items: seq<Item>, k: nat)
    requires c.isBatch && ValidItems(c, items) && k < |items|
    ensures Feed(c, items).1[k].Some? <==>
              && items[k].index == |c.requests| - 1
              && (c.requests[items[k].index].id.Some? || IsParseErrorResponse(items[k].response))
    decreases k
  {
    FeedUnfold(c, items);
    if k > 0 {
      var c1 := WriteServerResponse(c, items[0].index, items[0].response).0;
      FeedEmitsOnlyAtLast(c1, items[1..], k - 1);
      assert items[1..][k - 1] == items[k];
    }
  }

  /** In batch mode, when the final call emits, it emits every envelope
      accumulated so far, its own last. */
  lemma {:induction false} FeedLastOnBatch(c: CodecRequest, items: seq<Item>)
    requires c.isBatch && ValidItems(c, items) && |items| > 0
    ensures Feed(c, items).1[|items| - 1].Some? ==>
              Feed(c, items).1[|items| - 1].value == Out(ContentType, Batch(c.batchResponses + Responses(items)))
    decreases |items|
  {
    var c1 := WriteServerResponse(c, items[0].index, items[0].response).0;
    FeedUnfold(c, items);
    if |items| == 1 {
      assert Responses(items) == [items[0].response];
    } else {
      FeedLastOnBatch(c1, items[1..]);
      assert Feed(c, items).1[|items| - 1] == Feed(c1, items[1..]).1[|items[1..]| - 1];
      assert Responses(items) == [items[0].response] + Responses(items[1..]);
      assert c.batchResponses + Responses(items) == c1.batchResponses + Responses(items[1..]);
    }
  }

  /** Outside batch mode nothing accumulates, and each call emits its own
      envelope exactly when its request has an id or the envelope is a parse
      error. */
  lemma {:induction false} FeedOnSingle(c: CodecRequest, items: seq<Item>)
    requires !c.isBatch && ValidItems(c, items)
    ensures Feed(c, items).0 == c
    ensures forall k :: 0 <= k < |items| ==>
              Feed(c, items).1[k] ==
                if c.requests[items[k].index].id.Some? || IsParseErrorResponse(items[k].response)
                then Some(Out(ContentType, Single(items[k].response)))
                else None
    decreases |items|
  {
    if |items| > 0 {
      FeedUnfold(c, items);
      FeedOnSingle(c, items[1..]);
    }
  }

  /** One write call a dispatcher makes once request `index` is handled. */
  datatype Write = WriteReply(index: nat, reply: Value) | WriteFault(index: nat, err: Err)

  predicate ValidWrites(c: CodecRequest, ws: seq<Write>) {
    forall k :: 0 <= k < |ws| ==> ws[k].index < |c.requests|
  }

  /** The write call itself. */
  function Apply(c: CodecRequest, w: Write): (CodecRequest, Option<Out>)
    requires w.index < |c.requests|
  {
    match w
    case WriteReply(i, v) => WriteResponse(c, i, v)
    case WriteFault(i, e) => WriteError(c, i, e)
  }

  /** The envelope a write builds. It depends only on the requests and the
      configuration, which no write changes. */
  function Envelope(c: CodecRequest, w: Write): Response
    requires w.index < |c.requests|
  {
    match w
    case WriteReply(i, v) => ReplyEnvelope(c.requests[i].id, v)
    case WriteFault(i, e) => ErrorEnvelope(c.config, c.requests[i].id, e)
  }

  /** What the writes hand to `writeServerResponse`. */
  function Emissions(c: CodecRequest, ws: seq<Write>): (r: seq<Item>)
    requires ValidWrites(c, ws)
    ensures |r| == |ws| && ValidItems(c, r)
    ensures forall k :: 0 <= k < |ws| ==> r[k] == Item(ws[k].index, Envelope(c, ws[k]))
  {
    seq(|ws|, k requires 0 <= k < |ws| => Item(ws[k].index, Envelope(c, ws[k])))
  }

  /** Runs the writes in call order, collecting what each call emits. */
  function Run(c: CodecRequest, ws: seq<Write>): (CodecRequest, seq<Option<Out>>)
    requires ValidWrites(c, ws)
  {
    Feed(c, Emissions(c, ws))
  }

  /** `Run` is the write calls made one after the other: the first call's
      state is where the rest run, and its output comes first. */
  lemma RunIsWriteCalls(c: CodecRequest, ws: seq<Write>)
    requires ValidWrites(c, ws) && |ws| > 0
    ensures ValidWrites(Apply(c, ws[0]).0, ws[1..])
    ensures Run(c, ws).0 == Run(Apply(c, ws[0]).0, ws[1..]).0
    ensures Run(c, ws).1 == [Apply(c, ws[0]).1] + Run(Apply(c, ws[0]).0, ws[1..]).1
  {
    var c1 := Apply(c, ws[0]).0;
    assert Apply(c, ws[0]) == WriteServerResponse(c, ws[0].index, Envelope(c, ws[0]));
    FeedUnfold(c, Emissions(c, ws));
    assert Emissions(c, ws)[1..] == Emissions(c1, ws[1..]);
  }

  /** A fresh batch request set answered once per index, in index order. */
  predicate AnsweredInOrder(c: CodecRequest, items: seq<Item>) {
    && c.isBatch && c.batchResponses == [] && |c.requests| > 0
    && |items| == |c.requests|
    && (forall k :: 0 <= k < |items| ==> items[k].index == k)
    && ValidItems(c, items)
  }

  /** A batch answered once per index, in index order, emits nothing before
      the last call. The last call emits every envelope in request order,
      notifications included, and it does so exactly when the last request
      has an id or its envelope is a parse error. */
  lemma FeedInOrderBatch(c: CodecRequest, items: seq<Item>)
    requires AnsweredInOrder(c, items)
    ensures Feed(c, items).0.batchResponses == Responses(items)
    ensures forall k :: 0 <= k < |items| - 1 ==> Feed(c, items).1[k].None?
    ensures Feed(c, items).1[|items| - 1].Some? <==>
              c.requests[|items| - 1].id.Some? || IsParseErrorResponse(items[|items| - 1].response)
    ensures Feed(c, items).1[|items| - 1].Some? ==>
              Feed(c, items).1[|items| - 1].value == Out(ContentType, Batch(Responses(items)))
  {
    FeedStateOnBatch(c, items);
    forall k | 0 <= k < |items| - 1
      ensures Feed(c, items).1[k].None?
    {
      FeedEmitsOnlyAtLast(c, items, k);
    }
    FeedEmitsOnlyAtLast(c, items, |items| - 1);
    FeedLastOnBatch(c, items);
  }

  /** A batch whose last request is a notification answered with a result
      emits nothing at all, even when earlier requests carry ids. */
  lemma LastNotificationSilencesBatch(c: CodecRequest, items: seq<Item>)
    requires AnsweredInOrder(c, items)
    requires c.requests[|items| - 1].id.None? && items[|items| - 1].response.body.Returned?
    ensures forall k :: 0 <= k < |items| ==> Feed(c, items).1[k].None?
  {
    FeedInOrderBatch(c, items);
  }

  /** Every write hands `writeServerResponse` an envelope echoing the id of
      the request it answers. */
  lemma EmissionsEchoIds(c: CodecRequest, ws: seq<Write>)
    requires ValidWrites(c, ws)
    ensures forall k :: 0 <= k < |ws| ==>
              Emissions(c, ws)[k].response.id == c.requests[ws[k].index].id
  {
  }

  /** Outside batch mode each write emits its own envelope, echoing its
      request's id, exactly when the request has an id or the envelope is a
      parse error; a notification's reply is never emitted. */
  lemma RunOnSingle(c: CodecRequest, ws: seq<Write>)
    requires !c.isBatch && ValidWrites(c, ws)
    ensures Run(c, ws).0 == c
    ensures forall k :: 0 <= k < |ws| ==>
              Run(c, ws).1[k] ==
                if c.requests[ws[k].index].id.Some? || IsParseErrorResponse(Envelope(c, ws[k]))
                then Some(Out(ContentType, Single(Envelope(c, ws[k]))))
                else None
    ensures forall k :: 0 <= k < |ws| ==> Envelope(c, ws[k]).id == c.requests[ws[k].index].id
    ensures forall k :: 0 <= k < |ws| && ws[k].WriteReply? && c.requests[ws[k].index].id.None? ==> Run(c, ws).1[k].None?
  {
    FeedOnSingle(c, Emissions(c, ws));
  }

  // ---------------------------------------------------------------------------
  // Whole exchanges
  // ---------------------------------------------------------------------------

  /** An unparsable body is answered with exactly one envelope carrying the
      parse error and no id, unless a map-all mapper rewrites the error. */
  lemma ParseFailureIsReported(body: Result<Bytes, string>, json: Json, config: Config)
    requires ParseMessage(body, json).Failure?
    requires config.mapper.None? || !config.mapAll
    ensures var c := NewCodecRequest(body, json, config);
            && RequestCount(c) == 1
            && c.err.Some? && c.err.value.code == EParse
            && Method(c, 0) == ("", c.err)
            && WriteError(c, 0, Rpc(c.err.value)).1 ==
                 Some(Out(ContentType, Single(Response(Version, Failed(c.err.value), None))))
  {
  }

  /** In map-all mode the parse error goes through the mapper too, and the
      id-less placeholder is answered exactly when the mapper's image is
      still a parse error: a mapper that re-codes or redacts it silences
      the reply. */
  lemma MapAllCanSilenceParseFailure(body: Result<Bytes, string>, json: Json, config: Config)
    requires ParseMessage(body, json).Failure?
    requires config.mapper.Some? && config.mapAll
    ensures var c := NewCodecRequest(body, json, config);
            var m := config.mapper.value(Rpc(c.err.value));
            && c.err.Some?
            && (WriteError(c, 0, Rpc(c.err.value)).1.Some? <==> m.Rpc? && m.rpc.code == EParse)
  {
  }

  /** A single request with the wrong version and an id is answered with an
      invalid-request error whose data is the request itself, echoing its id. */
  lemma WrongVersionIsRejected(raw: Bytes, json: Json, config: Config, req: Request)
    requires !IsBatch(raw) && json.decodeRequest(raw) == Success(Some(req))
    requires req.version != Version && req.id.Some?
    requires config.mapper.None? || !config.mapAll
    ensures var c := NewCodecRequest(Success(raw), json, config);
            && c.requests == [req]
            && Method(c, 0) == ("", Some(Error(EInvalidReq, "jsonrpc must be 2.0", RequestData(req))))
            && WriteError(c, 0, Rpc(c.err.value)).1 ==
                 Some(Out(ContentType, Single(Response(Version, Failed(c.err.value), req.id))))
  {
    var c := NewCodecRequest(Success(raw), json, config);
    assert c.requests == [req];
    assert FirstBadVersion(c.requests) == Some(0);
    assert "jsonrpc must be " + Version == "jsonrpc must be 2.0";
  }

  /** An empty batch is a request set with no requests and no error: there is
      no index to dispatch, so nothing is ever written. */
  lemma EmptyBatchHasNoRequests(raw: Bytes, json: Json, config: Config)
    requires IsBatch(raw) && json.decodeBatch(raw) == Success([])
    ensures var c := NewCodecRequest(Success(raw), json, config);
            && RequestCount(c) == 0
            && c.isBatch
            && c.err.None?
  {
  }

  /** A successful reply to a single notification produces no output. */
  lemma NotificationReplyIsSilent(c: CodecRequest, reply: Value)
    requires !c.isBatch && |c.requests| > 0 && c.requests[0].id.None?
    ensures WriteResponse(c, 0, reply) == (c, None)
  {
  }

  /** The request count is what parsing produced: one placeholder for a body
      that failed to parse, one request for a single body, and one per
      element for a batch. */
  lemma CountMatchesParse(body: Result<Bytes, string>, json: Json, config: Config)
    ensures ParseMessage(body, json).Failure? ==> RequestCount(NewCodecRequest(body, json, config)) == 1
    ensures ParseMessage(body, json).Success? ==>
              RequestCount(NewCodecRequest(body, json, config)) == |ParseMessage(body, json).value.messages|
    ensures ParseMessage(body, json).Success? && !ParseMessage(body, json).value.isBatch ==>
              RequestCount(NewCodecRequest(body, json, config)) == 1
  {
  }

  // ---------------------------------------------------------------------------
  // Error mapping, end to end
  // ---------------------------------------------------------------------------

  /** `WriteError(c, i, err)` hands on an envelope for request `i` carrying
      the error object `e`: appended to the batch in batch mode, and as the
      single payload whenever it is emitted outside batch mode. */
  predicate Delivers(c: CodecRequest, i: nat, err: Err, e: Error)
    requires i < |c.requests|
  {
    var env := Response(Version, Failed(e), c.requests[i].id);
    var w := WriteError(c, i, err);
    && (c.isBatch ==> w.0.batchResponses == c.batchResponses + [env])
    && (!c.isBatch && w.1.Some? ==> w.1.value.payload == Single(env))
  }

  /** Without a mapper a JSON-RPC error is sent as it is and any other error
      becomes E_SERVER carrying its text. */
  lemma NoMapperSendsErrorsAsTheyAre(c: CodecRequest, i: nat, e: Error, text: string)
    requires i < |c.requests| && c.config.mapper.None?
    ensures Delivers(c, i, Rpc(e), e)
    ensures Delivers(c, i, Plain(text), Error(EServer, text, NoData))
  {
  }

  /** With a mapper but without map-all, a JSON-RPC error (an E_BAD_PARAMS
      one, say) reaches the envelope unchanged, and any other error is sent
      as the mapper's image: unchanged when that is a JSON-RPC error, as
      E_SERVER with the image's text otherwise. */
  lemma SelectiveMappingSparesRpcErrors(c: CodecRequest, i: nat, e: Error, text: string)
    requires i < |c.requests| && c.config.mapper.Some? && !c.config.mapAll
    ensures Delivers(c, i, Rpc(e), e)
    ensures var m := c.config.mapper.value(Plain(text));
            && (m.Rpc? ==> Delivers(c, i, Plain(text), m.rpc))
            && (m.Plain? ==> Delivers(c, i, Plain(text), Error(EServer, m.text, NoData)))
  {
  }

  /** In map-all mode even a JSON-RPC error is replaced by the mapper's
      image. */
  lemma MapAllRemapsRpcErrors(c: CodecRequest, i: nat, e: Error)
    requires i < |c.requests| && c.config.mapper.Some? && c.config.mapAll
    ensures var m := c.config.mapper.value(Rpc(e));
            && (m.Rpc? ==> Delivers(c, i, Rpc(e), m.rpc))
            && (m.Plain? ==> Delivers(c, i, Rpc(e), Error(EServer, m.text, NoData)))
  {
  }

  /** The request count never changes after the request set is built. */
  lemma CountIsStable<A>(c: CodecRequest, i: nat, args: A, binder: Binder<A>, reply: Value, err: Err)
    requires i < |c.requests|
    ensures RequestCount(ReadRequest(c, i, args, binder).codec) == RequestCount(c)
    ensures RequestCount(WriteResponse(c, i, reply).0) == RequestCount(c)
    ensures RequestCount(WriteError(c, i, err).0) == RequestCount(c)
  {
  }
}

=== FILE: wrappers.dfy ===
/** Optional values and fallible results, the model's stand-ins for Go's nil
    pointers and `(value, error)` returns. */
module Wrappers {

  /** A value that may be absent: a nil pointer or an omitted JSON member. */
  datatype Option<+T> = None | Some(value: T) {

    /** The carried value, or `default` when there is none. */
    function GetOr(default: T): T {
      match this
      case Some(v) => v
      case None => default
    }
  }

  /** The outcome of a Go call returning `(value, error)`: exactly one is set. */
  datatype Result<+T, +E> = Success(value: T) | Failure(error: E)
}
